=== FILE: README.md ===
# Trading board game: turn and asset engine in Dafny

This project models the core of a turn-based investment board game. Players buy
assets, pick a Long or Short strategy for each one, earn or lose interest
depending on the market trend, and race towards a capital and diversification
goal. The model covers three parts:

- **Asset** (`asset.dfy`, module `Assets`). Two two-state machines: status
  (Active/OnHold) and strategy (Long/Short). An invested-amount ledger that
  refuses to go below zero. A strategy switch that is allowed at most once every
  `StrategyChangeInterval` (3) turns and puts the asset on hold. Interest: the
  ceiling of `invested * rate`, signed by trend and strategy, and zero while on
  hold.
- **Player** (`player.dfy`, module `Players`). A capital balance and a portfolio
  `map<string, Asset>`. Buying, selling, investment plans, batched strategy
  changes and income collection. The derived predicates the victory rule reads:
  bankruptcy, capital invested, diversification and sector count.
- **Game** (`game.dfy`, module `Games`; `ordering.dfy`, module `Ordering`). The turn
  counter. The turn advance that ends one-turn holds. The player order of each
  turn, a stable sort on (capital, capital invested), highest first. The
  victory rule.

`results.dfy` holds the `Result`/`Option`/`Error` types, `settings.dfy` the game
constants, and `coin.dfy` the `Trend` type.

Modelling choices:

- Every rejected action returns `Err`, and the caller keeps its old state.
- The two batch operations (`invest` with a plan, `change_strategy`) fail fast
  but do not roll back, as in the source. `Batch.Aborted` carries the state the
  earlier steps produced.
- The market trend is an argument of every operation that reads it.
- The interest rate is an exact fraction `num / den` with `den > 0`.
- The portfolio map has no iteration order. Sums over it (`SumOf`) remove an
  arbitrary key, and `SumRemove` proves the choice does not matter. These sums
  are ghost functions, so `CapitalInvested`, `CollectIncome` and `ResolveOrder`
  are ghost too.
- The source has several crashing defects. Each one is modelled twice: as
  written, and as evidently intended (see "## Findings"). The rest of the model
  uses the intended version.

Two points where the code settles a question the model had to decide:

- Victory is by the capital-threshold rule only. `MAX_TURNS` is commented out
  at `src/utils/settings.py:5`, and `_check_victory` (`src/game/game.py:55-73`)
  reads no turn cap.
- `sell` does not check ownership before crediting the capital
  (`src/game/player.py:21-24`). Its `del` then raises KeyError for an unowned
  asset, after the credit. The model refuses such a sale (see "## Findings").

## Model

| member | source | states |
|---|---|---|
| Assets.Status.Switch | src/game/asset.py:16-28 | Each status switches to the other one: the result always differs from the input. |
| Assets.Strategy.Switch | src/game/asset.py:41-53 | Each strategy switches to the other one: the result always differs from the input. |
| Assets.NewAsset | src/game/asset.py:80-90 | A fresh asset is Active and Long, has nothing invested, and has last strategy change `-StrategyChangeInterval` (= -3). |
| Assets.ChangeStatus | src/game/asset.py:128-129 | Toggles Active and OnHold and changes no other field. |
| Assets.ChangeStatusTwiceIsIdentity | src/game/asset.py:16-28 | One toggle always changes the asset, and two toggles restore it. |
| Assets.Invest | src/game/asset.py:96-97 | The invested amount grows by exactly `amount`, nothing else changes, and a non-negative amount keeps the ledger non-negative. |
| Assets.Disinvest | src/game/asset.py:99-102 | Fails with OverDisinvestment exactly when `amount` exceeds the invested amount. Otherwise it subtracts exactly `amount`, and the result is never negative. |
| Assets.InvestThenDisinvestRestores | src/game/asset.py:96-102 | Investing then disinvesting the same amount succeeds exactly on assets with a non-negative ledger, and it returns the original asset. |
| Assets.Perform | src/game/asset.py:92-94 | The closed action type sends Invest to `invest` and Disinvest to `disinvest`. |
| Assets.Magnitude | src/game/asset.py:115 | The unsigned interest is the least integer `m` with `m * den >= invested * num`, i.e. the ceiling of `invested * rate`. |
| Assets.Interest | src/game/asset.py:104-115 | Interest is 0 while OnHold. When Active it is plus the ceiling of `invested * rate`, or minus it when the bet loses ((Down, Long) or (Up, Short)). |
| Assets.OppositeBetOppositeInterest | src/game/asset.py:108-115 | On an Active asset, once the coin has been tossed, flipping the strategy or the trend negates the interest. Before the first toss (trend unset, `src/game/coin.py:17`) the multiplier stays +1, so the interest is the unsigned amount. |
| Assets.WinningBetNonNegative | src/game/asset.py:112-115 | A winning bet with a non-negative ledger and rate never yields negative interest. |
| Assets.ChangeStrategy | src/game/asset.py:117-126 | Rejected exactly when `currentTurn - lastChange < 3`, reporting the turns left (always positive). When accepted it flips the strategy, leaves the asset OnHold, records the turn, and changes nothing else. |
| Assets.FirstChangeAccepted | src/game/asset.py:117-119 | A fresh asset accepts a strategy change on any turn from 0 on. |
| Assets.ChangeIsRateLimited | src/game/asset.py:117-126 | After a change on turn t, the next change is accepted exactly from turn t + 3, and it restores the original strategy. |
| Assets.SwitchedAssetEarnsNothing | src/game/asset.py:110-124 | An asset whose strategy was just changed earns 0 under either trend. |
| Assets.BitcoinExample | tests/test_asset.py:31-39 | The Bitcoin asset (price 1000, rate 0.8) with 100 invested accepts a strategy change on turn 1, which makes it Short and on hold, so it earns 0 under either trend. After a status toggle it earns +80 when the trend is Down and -80 when it is Up. |
| Players.NewPlayer | src/game/player.py:7-10 | A new player has capital 1000 and an empty portfolio. |
| Players.SumRemove | src/game/player.py:63-64 | A sum over the portfolio equals any one asset's term plus the sum over the rest, so the order of summation does not matter. |
| Players.CapitalInvested | src/game/player.py:62-64 | The capital invested is the sum of invested amounts over the portfolio, and it is never negative for a valid player. |
| Players.Buy | src/game/player.py:12-19 | Fails with InsufficientCapital exactly when `capital < price`. Otherwise it debits exactly the price, files the asset under its name, leaves other entries alone, and keeps a non-negative capital non-negative. |
| Players.Sell | src/game/player.py:21-24 | Refused with AssetNotOwned exactly when the name is not owned. Otherwise it credits the owned entry's current `invested + price`, removes exactly that name, and leaves other entries alone. |
| Players.BuyThenSellRestores | src/game/player.py:12-24 | Buying an unowned asset with nothing invested and then selling it restores the player. |
| Players.RunSteps | src/game/player.py:26-34 | A batch aborts only at a step that fails on the state the earlier steps produced, and it reports that step's error. An empty batch completes unchanged, a failing first step aborts at step 0 with the player unchanged, and a completed batch's first step succeeded. |
| Players.RunExtend | src/game/player.py:26-34 | Running one more step after a batch is the loop's next iteration: a completed batch applies the step to its final state and aborts there if it fails, and an aborted batch stays aborted at the same step. |
| Players.RunAbortedPrefix | src/game/player.py:26-34 | An aborted batch keeps exactly the state its earlier steps produced: those steps alone complete with that state, and nothing is rolled back. |
| Players.InvestStep | src/game/player.py:26-29 | A plan entry naming an unowned asset fails with AssetNotOwned. An owned entry fails exactly when it disinvests more than the asset holds, with OverDisinvestment. On success it changes only the named asset's invested amount, by the signed amount. |
| Players.InvestPlan | src/game/player.py:26-29 | A plan aborts only at an entry that fails on the state the earlier entries produced. An empty plan changes nothing, and a plan whose first entry is unowned aborts at once with the player unchanged. |
| Players.InvestPlanEffect | src/game/player.py:26-29 | A plan never changes capital, ownership or name. A completed plan moves each asset's invested amount by the net of its entries and changes nothing else. |
| Players.InvestPlanOwnership | src/game/player.py:26-29 | A plan aborts with AssetNotOwned exactly at an entry naming an unowned asset, and every entry before the abort names an owned asset. A completed plan named only owned assets, and a plan with an unowned entry at position k aborts at k or earlier. |
| Players.InvestPlanKeepsValid | src/game/player.py:26-29 | A plan that invests no negative amount keeps every invested amount non-negative, whether it completes or aborts. |
| Players.OwnedInvestmentsComplete | src/game/player.py:26-29 | A plan of investments into owned assets always completes. |
| Players.StrategyStep | src/game/player.py:31-34 | Switching an unowned asset fails with AssetNotOwned. An owned one fails exactly when it is still cooling down. On success only that asset changes, as the asset-level switch says. |
| Players.ChangeStrategies | src/game/player.py:31-34 | A batch aborts only at a name whose switch fails on the state the earlier switches produced. An empty batch changes nothing, and a batch whose first name is unowned aborts at once with the player unchanged. |
| Players.ChangeStrategiesEffect | src/game/player.py:31-34 | A batch of distinct names completes exactly when every name is owned and off cool-down. It then switches exactly the named assets, and it never changes capital or ownership. |
| Players.ChangeStrategiesKeepValid | src/game/player.py:31-34 | A batch of strategy changes keeps the ledger invariant, whether it completes or aborts. |
| Players.CollectIncome | src/game/player.py:36-38 | Capital rises by the sum of all owned assets' interest under one trend, and the portfolio is unchanged. |
| Players.IncomeOfOneAsset | src/game/player.py:36-38 | Income splits into any one asset's interest plus the income of the rest. |
| Players.OnHoldPortfolioEarnsNothing | src/game/player.py:36-38 | A portfolio that is entirely on hold leaves the player unchanged under either trend. |
| Players.BankruptIsStuck | src/game/player.py:40-44 | A bankrupt player (empty portfolio, negative capital) cannot buy anything with a non-negative price, and stays bankrupt after collecting income. |
| Players.DiversifiedMeansEveryType | src/game/player.py:66-69 | "As many distinct types as there are types" holds exactly when the portfolio has a Bond, a Stock and a Crypto. |
| Players.BuyExample | src/game/player.py:12-19 | Capital 1000 buying an asset priced 1000 leaves 0, and any further positive-priced buy fails. |
| Players.SellExample | src/game/player.py:21-24 | Capital 0 selling an owned asset with 50 invested and price 200 gives 250, and that name is then not owned. |
| Players.BuyInvestSellExample | src/game/player.py:12-29 | Buying an asset, investing 100 in it and selling it returns the price and the 100, leaving the player 100 richer. |
| Ordering.SortDesc | src/game/game.py:46 | The sorted order is a permutation of the players, non-increasing in (capital, capital invested). |
| Ordering.SortIsStable | src/game/game.py:45-46 | For every key, the players with that key keep their previous relative order. |
| Ordering.OrderingExample | src/game/game.py:44-46 | Keys (500,10), (500,20), (700,10) sort to (700,10), (500,20), (500,10). |
| Games.NewGame | src/game/game.py:19 | The turn counter starts at 1 and no winner is set. |
| Games.Reactivate | src/game/game.py:50 | An asset ends up Active exactly when it was Active or its last change is before the current turn. Only the status can change. |
| Games.AdvanceTurn | src/game/game.py:48-53 | The turn increases by exactly 1. Exactly the OnHold assets changed before the current turn become Active, and nothing else about any player or asset changes. |
| Games.HoldLastsOneTurn | src/game/game.py:48-53 | An asset switched on turn t is still OnHold after the advance that ends turn t, and Active after the advance that ends turn t + 1. |
| Games.AdvanceKeepsCapitalInvested | src/game/game.py:48-53 | Advancing the turn does not change any player's capital invested. |
| Games.ResolveOrder | src/game/game.py:41-46 | The new order is a permutation. On turn 1 it is the given shuffle. On later turns it is non-increasing by (capital, capital invested), and players with equal keys keep their previous relative order. |
| Games.Judge | src/game/game.py:55-73 | The game is over exactly when some player qualifies (capital >= 10000, at least 3 sectors, diversified, nothing on hold), and the first such player wins. Otherwise the provisional winner is the earliest player with the highest capital if that capital is positive, and none is recorded if it is not. |
| Games.CheckVictory | src/game/game.py:55-72 | When the game is over, the recorded winner is the first player who qualifies. Otherwise, if some player has positive capital, it records the earliest player with the highest capital. If no player has positive capital, the recorded winner is unchanged. |
| Games.CheckVictoryAsWritten | src/game/game.py:55-73 | As written, the check raises at the first player who qualifies or has positive capital. Otherwise it returns True. |
| Players.SellAsWritten | src/game/player.py:21-24 | As written, selling credits the passed asset's invested amount and price, and the call raises exactly when the name is not owned, after the credit. For the asset the portfolio holds it agrees with `Sell`. |
| Players.InvestPlanAsWritten | src/game/player.py:26-29 | As written, any non-empty plan fails at its first entry with the player unchanged: AssetNotOwned if that entry is unowned, a fault otherwise. An empty plan completes unchanged. |
| Players.ChangeStrategiesAsWritten | src/game/player.py:31-34 | As written, any non-empty batch aborts at its first name with Fault and the player unchanged, whether or not that name is owned. An empty batch completes. |
| Players.CollectIncomeAsWritten | src/game/player.py:36-38 | As written, income collection fails with Fault on every non-empty portfolio, and an empty portfolio leaves the player unchanged. |

## Left out

- The market-trend coin (`src/game/coin.py:10-26`) is not modelled. Its random toss and process-wide singleton become a `Trend` argument, and only the `Trend` type is kept, including the unset value it holds before the first toss.
- The turn-1 `shuffle` (`src/game/game.py:42-43`) is random. `ResolveOrder` takes the shuffled order as an argument, required to be a permutation of the players.
- `_assign_players_names`, `Game.__init__` and `Game.__new__` are construction plumbing and are not modelled. `[Player()]*NUM_PLAYERS` would alias one player several times, and its assets would be listed once per alias. `_advance_turn` re-checks the on-hold condition before each toggle, so a shared asset is still toggled once. Capital would be shared as well. The model keeps players as independent values.
- Phases (`src/game/phase.py`) and events (`src/game/event.py`) are not part of this model. Their `play`/`take_place` bodies are empty, and the events phase reads a JSON file.
- `Asset.is_impacted_by_event` is not modelled: it compares a class name and is always false.
- The `start` loop, `GameStatus` and `_end` are not modelled. They only sequence the phases, the advance and the victory check.
- The float interest rate is replaced by an exact fraction, so the model has no floating-point rounding. Because the source takes the ceiling of a float product, a rounding error just above a whole number becomes a whole unit: Python computes `100 * 0.07` as 7.000000000000001, so `math.ceil` gives 8, while `Magnitude` gives 7 for 100 invested at `Rate(7, 100)`. Interest in the model and in the source can therefore differ by 1.
- Enum parsing of asset types and sectors from strings is not modelled. The enums are datatypes, so an invalid name cannot occur.
- `Asset.action` dispatches any name through `getattr` (`src/game/asset.py:92-94`). Names other than invest and disinvest are either rejected by `getattr` or sent to another `Asset` method such as `change_status` or `change_investment_strategy`. Neither case can be expressed with the closed `Action` type, so neither is modelled.
- Python exception classes and message texts are not modelled; each failure is reported by its `Error` kind (InsufficientCapital, OverDisinvestment, AssetNotOwned, StrategyChangeTooSoon with the turns left, or Fault for a call that crashes). The rejection message of `change_investment_strategy` names an undefined variable (`src/game/asset.py:119`), so it raises NameError instead of ValueError. The model reports that rejection as StrategyChangeTooSoon with the number of turns left.
- Players.Sell: takes the name of the asset and credits the portfolio's entry under that name. The source credits the asset object it is passed. The two differ only when a caller passes a different object under an owned name, and `SellAsWritten` keeps the source's form.
- Assets are values. In the source, one Asset object held in two portfolios (or bought twice) shares one ledger and one status, and an investment through one owner shows up for the other. The model gives each portfolio entry its own copy.
- Python's dict insertion order is not modelled. The only order-dependent portfolio operations are sums, and sums do not depend on order.
- Assets.Invest: promises the ledger invariant only for non-negative amounts. The source does not check prices or amounts for sign, so neither does the model, and investing a negative amount can make the ledger negative.

## Findings

| source | as written | input that shows it | evidently intended | confidence | as-written member | corrected member |
|---|---|---|---|---|---|---|
| src/game/player.py:36-38 | iterates the portfolio's keys (strings) and calls `calculate_interest` on them | any non-empty portfolio | add each owned asset's interest to the capital | high, not executed | Players.CollectIncomeAsWritten, Players.CollectIncomeDiscrepancy | Players.CollectIncome |
| src/game/player.py:31-34 | calls the undefined `_validate_asset_in_portfolio`, then calls a method on the name string | any non-empty set of names | check ownership, then switch the named asset | high, not executed | Players.ChangeStrategiesAsWritten, Players.ChangeStrategiesDiscrepancy | Players.ChangeStrategies |
| src/game/player.py:29 | passes `amount=` as a keyword to `action(type, *args)`, which does not accept it | a plan whose first entry names an owned asset | apply the action with the amount | high, not executed | Players.InvestPlanAsWritten, Players.InvestPlanDiscrepancy | Players.InvestPlan |
| src/game/player.py:21-24 | credits the capital before `del` raises KeyError for an unowned name | selling an asset that is not owned, with price or invested amount non-zero | refuse the sale with nothing changed | medium, not executed | Players.SellAsWritten, Players.SellUnownedDiscrepancy | Players.Sell |
| src/game/game.py:73 | returns True whether or not anyone qualified | one player with capital 0 and an empty portfolio | return False when nobody qualifies, so the game goes on | high, not executed | Games.CheckVictoryAsWritten, Games.VictoryAlwaysTrueDiscrepancy | Games.Judge |
| src/game/game.py:68-71 | assigns to `winner`, a property without a setter, which raises AttributeError | a fresh player with capital 1000 | record the winner in the underlying field | high, not executed | Games.CheckVictoryAsWritten, Games.WinnerAssignmentDiscrepancy | Games.CheckVictory |

=== FILE: asset.dfy ===
/** One tradable asset: its two two-state machines (status and investment
    strategy), its invested-amount ledger, the rate-limited strategy switch
    and the interest it yields in a turn. Models src/game/asset.py. */
module Assets {
  import opened Results
  import opened Settings
  import opened Coin

  /** Whether the asset currently yields interest. */
  datatype Status = Active | OnHold {
    /** The unconditional toggle of the state pattern. */
    function Switch(): (s: Status)
      ensures s != this
    {
      if Active? then OnHold else Active
    }
  }

  /** Long bets on an upward trend, Short on a downward one. */
  datatype Strategy = Long | Short {
    /** The unconditional toggle of the state pattern. */
    function Switch(): (s: Strategy)
      ensures s != this
    {
      if Long? then Short else Long
    }
  }

  datatype AssetType = Bond | Stock | Crypto

  datatype Sector =
    | Energy | Materials | Healthcare | Finance | Technology
    | Semiconductors | CommunicationServices | RealEstate | ConsumerGoods

  type Positive = d: int | d > 0 witness 1

  /** An exact interest rate `num / den`; the game stores it as a float. */
  datatype Rate = Rate(num: int, den: Positive)

  datatype Asset = Asset(
    name: string,
    price: int,
    rate: Rate,
    kind: AssetType,
    sector: Sector,
    invested: int,
    status: Status,
    strategy: Strategy,
    lastChange: int)
  {
    predicate IsActive() {
      status == Active
    }

    /** The ledger invariant: the invested amount is never negative. */
    predicate Valid() {
      invested >= 0
    }
  }

  /** A newly listed asset: Active, Long, nothing invested, and a last strategy
      change far enough in the past that a change is legal from turn 0 on. */
  function NewAsset(name: string, price: int, rate: Rate, kind: AssetType, sector: Sector): (a: Asset)
    ensures a.name == name && a.price == price && a.rate == rate
    ensures a.kind == kind && a.sector == sector
    ensures a.IsActive() && a.strategy == Long && a.invested == 0 && a.Valid()
    ensures a.lastChange == -StrategyChangeInterval
  {
    Asset(name, price, rate, kind, sector, 0, Active, Long, -StrategyChangeInterval)
  }

  /** Toggles Active and OnHold; nothing else about the asset changes. */
  function ChangeStatus(a: Asset): (r: Asset)
    ensures r.status != a.status
    ensures r.IsActive() <==> !a.IsActive()
    ensures r == a.(status := r.status)
  {
    a.(status := a.status.Switch())
  }

  /** Adds `amount` to the invested amount. The source does not check the sign
      of `amount`. */
  function Invest(a: Asset, amount: int): (r: Asset)
    ensures r.invested - a.invested == amount
    ensures r == a.(invested := r.invested)
    ensures a.Valid() && amount >= 0 ==> r.Valid()
  {
    a.(invested := a.invested + amount)
  }

  /** Takes `amount` out of the invested amount, refusing to take out more than
      is invested. */
  function Disinvest(a: Asset, amount: int): (r: Result<Asset>)
    ensures r.Err? <==> amount > a.invested
    ensures r.Err? ==> r.error == OverDisinvestment
    ensures r.Ok? ==> a.invested - r.value.invested == amount
    ensures r.Ok? ==> r.value.Valid()
    ensures r.Ok? ==> r.value == a.(invested := r.value.invested)
  {
    if amount > a.invested then Err(OverDisinvestment)
    else Ok(a.(invested := a.invested - amount))
  }

  /** The two actions a player may apply to an owned asset; the source selects
      them by the method names "invest" and "disinvest". */
  datatype Action = InvestAction(amount: int) | DisinvestAction(amount: int)

  function Perform(a: Asset, action: Action): (r: Result<Asset>)
    ensures action.InvestAction? ==> r == Ok(Invest(a, action.amount))
    ensures action.DisinvestAction? ==> r == Disinvest(a, action.amount)
  {
    match action
    case InvestAction(n) => Ok(Invest(a, n))
    case DisinvestAction(n) => Disinvest(a, n)
  }

  /** Integer ceiling of `x / d`. */
  function CeilDiv(x: int, d: Positive): (q: int)
    ensures (q - 1) * d < x <= q * d
  {
    var f := (-x) / d;
    assert f * d <= -x < f * d + d;
    -f
  }

  /** The bet loses when the trend goes against the strategy. */
  predicate BetsAgainst(trend: Trend, strategy: Strategy) {
    (trend == Down && strategy == Long) || (trend == Up && strategy == Short)
  }

  /** The unsigned interest: `invested * rate`, rounded up. */
  function Magnitude(a: Asset): (m: int)
    ensures (m - 1) * a.rate.den < a.invested * a.rate.num <= m * a.rate.den
  {
    CeilDiv(a.invested * a.rate.num, a.rate.den)
  }

  /** The interest an asset yields in a turn with the given trend: nothing while
      OnHold, otherwise the rounded-up magnitude, negated when the bet loses.
      A trend that was never tossed loses no bet. */
  function Interest(a: Asset, trend: Trend): (r: int)
    ensures !a.IsActive() ==> r == 0
    ensures a.IsActive() && !BetsAgainst(trend, a.strategy) ==>
      (r - 1) * a.rate.den < a.invested * a.rate.num <= r * a.rate.den
    ensures a.IsActive() && BetsAgainst(trend, a.strategy) ==>
      (-r - 1) * a.rate.den < a.invested * a.rate.num <= -r * a.rate.den
  {
    var multiplier :=
      if !a.IsActive() then 0
      else if BetsAgainst(trend, a.strategy) then -1
      else 1;
    Magnitude(a) * multiplier
  }

  /** Switches the strategy unless the last switch was fewer than
      `StrategyChangeInterval` turns ago. A switch puts an Active asset on
      hold (an asset already on hold stays so) and records the turn.
      The source's rejection message names an undefined variable
      (asset.py:119), so it raises a NameError instead of the intended
      ValueError; only the rejection itself is modelled. */
  function ChangeStrategy(a: Asset, currentTurn: int): (r: Result<Asset>)
    ensures r.Err? <==> currentTurn - a.lastChange < StrategyChangeInterval
    ensures r.Err? ==>
      r.error == StrategyChangeTooSoon(a.lastChange + StrategyChangeInterval - currentTurn)
      && r.error.turnsLeft > 0
    ensures r.Ok? ==> r.value.strategy != a.strategy
    ensures r.Ok? ==> r.value.status == OnHold
    ensures r.Ok? ==> r.value.lastChange == currentTurn
    ensures r.Ok? ==> r.value == a.(strategy := r.value.strategy, status := OnHold, lastChange := currentTurn)
  {
    if currentTurn - a.lastChange < StrategyChangeInterval then
      Err(StrategyChangeTooSoon(a.lastChange + StrategyChangeInterval - currentTurn))
    else
      var switched := a.(strategy := a.strategy.Switch());
      var held := if switched.IsActive() then ChangeStatus(switched) else switched;
      Ok(held.(lastChange := currentTurn))
  }

  // ----- Properties relating several operations -----

  lemma ChangeStatusTwiceIsIdentity(a: Asset)
    ensures ChangeStatus(a) != a
    ensures ChangeStatus(ChangeStatus(a)) == a
  {
  }

  /** The round trip holds exactly for assets that keep the ledger invariant. */
  lemma InvestThenDisinvestRestores(a: Asset, amount: int)
    ensures Disinvest(Invest(a, amount), amount).Ok? <==> a.Valid()
    ensures a.Valid() ==> Disinvest(Invest(a, amount), amount) == Ok(a)
  {
  }

  /** A strategy switch is legal on any turn from 0 on for a fresh asset. */
  lemma FirstChangeAccepted(a: Asset, currentTurn: int)
    requires a.lastChange == -StrategyChangeInterval
    requires currentTurn >= 0
    ensures ChangeStrategy(a, currentTurn).Ok?
  {
  }

  /** After a switch on turn `t`, the next switch is refused before turn
      `t + StrategyChangeInterval` and accepted from that turn on, and a second
      switch restores the original strategy. */
  lemma ChangeIsRateLimited(a: Asset, t: int, later: int)
    requires ChangeStrategy(a, t).Ok?
    ensures ChangeStrategy(ChangeStrategy(a, t).value, later).Ok? <==> later >= t + StrategyChangeInterval
    ensures later >= t + StrategyChangeInterval ==>
      ChangeStrategy(ChangeStrategy(a, t).value, later).value.strategy == a.strategy
  {
  }

  /** A switched asset earns nothing until it is reactivated. */
  lemma SwitchedAssetEarnsNothing(a: Asset, t: int, trend: Trend)
    requires ChangeStrategy(a, t).Ok?
    ensures Interest(ChangeStrategy(a, t).value, trend) == 0
  {
  }

  /** Once the coin has been tossed, switching the strategy or the trend of an
      Active asset negates its interest; before the first toss the asset earns
      the positive magnitude whatever its strategy. */
  lemma OppositeBetOppositeInterest(a: Asset, trend: Trend)
    requires a.IsActive()
    ensures !trend.Unset? ==> Interest(a.(strategy := a.strategy.Switch()), trend) == -Interest(a, trend)
    ensures !trend.Unset? ==> Interest(a, trend.Opposite()) == -Interest(a, trend)
    ensures trend.Unset? ==> Interest(a, trend) == Magnitude(a)
  {
  }

  /** A winning bet on a valid asset with a non-negative rate never loses money. */
  lemma WinningBetNonNegative(a: Asset, trend: Trend)
    requires a.Valid() && a.rate.num >= 0
    requires a.IsActive() && !BetsAgainst(trend, a.strategy)
    ensures Interest(a, trend) >= 0
  {
  }

  /** The path of the interest test: 100 invested at rate 0.8, a strategy
      change on turn 1 (Long to Short, on hold) earns 0 under either trend;
      after the status toggle back to Active the Short bet earns +80 when the
      trend is down and -80 when it is up. */
  lemma BitcoinExample()
    ensures var bitcoin := Invest(NewAsset("Bitcoin", 1000, Rate(4, 5), Crypto, Finance), 100);
      var switched := ChangeStrategy(bitcoin, 1);
      && switched.Ok?
      && switched.value.strategy == Short
      && Interest(switched.value, Down) == 0 && Interest(switched.value, Up) == 0
      && Interest(ChangeStatus(switched.value), Down) == 80
      && Interest(ChangeStatus(switched.value), Up) == -80
  {
  }
}

=== FILE: coin.dfy ===
/** The market trend of a turn. The random toss that sets it is not part of
    the model: every operation that depends on the trend takes it as an
    argument, so all assets of a turn read the same value. `Unset` is the
    coin's value before its first toss (coin.py:17), which matches neither
    direction. */
module Coin {

  datatype Trend = Up | Down | Unset {
    /** The other direction; a coin not yet tossed has none. */
    function Opposite(): (t: Trend)
      ensures Unset? <==> t.Unset?
      ensures !Unset? ==> t != this
    {
      match this
      case Up => Down
      case Down => Up
      case Unset => Unset
    }
  }
}

=== FILE: game.dfy ===
/** The game's turn bookkeeping: the turn counter, the reactivation of assets
    whose one-turn hold has elapsed, the player order of each turn and the
    victory rule. Models src/game/game.py. */
module Games {
  import opened Results
  import opened Settings
  import opened Coin
  import opened Assets
  import opened Ordering
  import opened Players

  datatype Game = Game(turn: int, players: seq<Player>, winner: Option<Player>)

  function NewGame(players: seq<Player>): (g: Game)
    ensures g.turn == 1 && g.players == players && g.winner == None
  {
    Game(FirstTurn, players, None)
  }

  // ----- Advancing the turn -----

  /** Ends the hold of an asset whose strategy changed before `currentTurn`. */
  function Reactivate(a: Asset, currentTurn: int): (r: Asset)
    ensures r.IsActive() <==> a.IsActive() || a.lastChange < currentTurn
    ensures r == a.(status := r.status)
  {
    if !a.IsActive() && a.lastChange < currentTurn then ChangeStatus(a) else a
  }

  function ReactivatePortfolio(p: Player, currentTurn: int): (r: Player)
    ensures r == p.(portfolio := r.portfolio)
    ensures r.portfolio.Keys == p.portfolio.Keys
    ensures forall n :: n in p.portfolio ==> r.portfolio[n] == Reactivate(p.portfolio[n], currentTurn)
  {
    p.(portfolio := map n | n in p.portfolio :: Reactivate(p.portfolio[n], currentTurn))
  }

  /** `_advance_turn`: reactivates exactly the OnHold assets whose last strategy
      change is strictly before the current turn, changes nothing else about
      any asset or player, and moves to the next turn. */
  function AdvanceTurn(g: Game): (r: Game)
    ensures r.turn == g.turn + 1
    ensures r.winner == g.winner && |r.players| == |g.players|
    ensures forall i :: 0 <= i < |g.players| ==>
      r.players[i] == g.players[i].(portfolio := r.players[i].portfolio)
      && r.players[i].portfolio.Keys == g.players[i].portfolio.Keys
    ensures forall i, n :: 0 <= i < |g.players| && n in g.players[i].portfolio ==>
      var before := g.players[i].portfolio[n];
      var after := r.players[i].portfolio[n];
      after == before.(status := after.status)
      && (after.IsActive() <==> before.IsActive() || before.lastChange < g.turn)
  {
    g.(players := seq(|g.players|, i requires 0 <= i < |g.players| => ReactivatePortfolio(g.players[i], g.turn)),
       turn := g.turn + 1)
  }

  /** The one-turn hold: an asset whose strategy changes on turn t is still on
      hold after the advance that ends turn t, and active again after the
      advance that ends turn t + 1. */
  lemma HoldLastsOneTurn(g: Game, i: nat, n: string)
    requires i < |g.players|
    requires StrategyStep(g.players[i], n, g.turn).Ok?
    ensures var changed := g.(players := g.players[i := StrategyStep(g.players[i], n, g.turn).value]);
      var next := AdvanceTurn(changed);
      var nextButOne := AdvanceTurn(next);
      && n in next.players[i].portfolio && !next.players[i].portfolio[n].IsActive()
      && n in nextButOne.players[i].portfolio && nextButOne.players[i].portfolio[n].IsActive()
      && nextButOne.turn == g.turn + 2
  {
  }

  /** Advancing the turn leaves each player's capital invested as it was, so
      only the players' balances decide the next order. */
  lemma AdvanceKeepsCapitalInvested(g: Game, i: nat)
    requires i < |g.players|
    ensures CapitalInvested(AdvanceTurn(g).players[i]) == CapitalInvested(g.players[i])
  {
    var before := g.players[i].portfolio;
    var after := AdvanceTurn(g).players[i].portfolio;
    SumAgree(after, (a: Asset) => a.invested, before, (a: Asset) => a.invested);
  }

  // ----- Player order -----

  ghost function PlayerRank(p: Player): Rank {
    Rank(p.capital, CapitalInvested(p))
  }

  /** `_resolve_players_order`. On the first turn the order is a random
      shuffle, given here as `shuffled`; on later turns the players are sorted
      by capital, then capital invested, highest first, and players with equal
      keys keep their previous relative order. */
  ghost function ResolveOrder(g: Game, shuffled: seq<Player>): (r: Game)
    requires g.turn == FirstTurn ==> multiset(shuffled) == multiset(g.players)
    ensures r == g.(players := r.players)
    ensures multiset(r.players) == multiset(g.players)
    ensures g.turn == FirstTurn ==> r.players == shuffled
    ensures g.turn != FirstTurn ==> NonIncreasing(r.players, PlayerRank)
    ensures g.turn != FirstTurn ==>
      forall k :: WithKey(r.players, PlayerRank, k) == WithKey(g.players, PlayerRank, k)
  {
    if g.turn == FirstTurn then g.(players := shuffled)
    else
      var sorted := SortDesc(g.players, PlayerRank);
      assert forall k :: WithKey(sorted, PlayerRank, k) == WithKey(g.players, PlayerRank, k) by {
        forall k {
          SortIsStable(g.players, PlayerRank, k);
        }
      }
      g.(players := sorted)
  }

  // ----- Victory -----

  /** A player who has reached the capital threshold, holds assets in enough
      sectors and of every type, and has no asset on hold. */
  predicate Qualifies(p: Player) {
    && p.capital >= CapitalThresholdToWin
    && NumSectors(p) >= MinDifferentSectorsToWin
    && IsDiversified(p)
    && NoneOnHold(p)
  }

  /** The outcome of a victory check: whether the game is over, and the index
      of the player to record as winner (None leaves the winner as it was). */
  datatype Verdict = Verdict(over: bool, choice: Option<nat>)

  /** `_check_victory`: the first qualifying player in order wins and ends the
      game. While nobody qualifies the game goes on, and the earliest player
      with the highest capital is recorded as provisional winner, provided
      that capital is positive. The source returns True even when nobody
      qualifies and assigns the winner to a read-only property; see
      `CheckVictoryAsWritten`. */
  method Judge(ps: seq<Player>) returns (v: Verdict)
    ensures v.over <==> exists i :: 0 <= i < |ps| && Qualifies(ps[i])
    ensures v.choice.Some? ==> v.choice.value < |ps|
    ensures v.over ==> v.choice.Some? && Qualifies(ps[v.choice.value])
    ensures v.over ==> forall j :: 0 <= j < v.choice.value ==> !Qualifies(ps[j])
    ensures !v.over ==> (v.choice.Some? <==> exists i :: 0 <= i < |ps| && ps[i].capital > 0)
    ensures !v.over && v.choice.Some? ==>
      && (forall j :: 0 <= j < |ps| ==> ps[j].capital <= ps[v.choice.value].capital)
      && (forall j :: 0 <= j < v.choice.value ==> ps[j].capital < ps[v.choice.value].capital)
  {
    var highest := 0;
    var choice: Option<nat> := None;
    var i := 0;
    while i < |ps|
      invariant 0 <= i <= |ps|
      invariant forall j :: 0 <= j < i ==> !Qualifies(ps[j])
      invariant choice.None? ==> highest == 0 && forall j :: 0 <= j < i ==> ps[j].capital <= 0
      invariant choice.Some? ==>
        && choice.value < i
        && highest == ps[choice.value].capital
        && highest > 0
        && (forall j :: 0 <= j < i ==> ps[j].capital <= highest)
        && (forall j :: 0 <= j < choice.value ==> ps[j].capital < highest)
    {
      if Qualifies(ps[i]) {
        return Verdict(true, Some(i));
      } else if ps[i].capital > highest {
        choice := Some(i);
        highest := ps[i].capital;
      }
      i := i + 1;
    }
    return Verdict(false, choice);
  }

  /** Runs the victory check on a game and records the chosen winner: the
      first qualifying player ends the game; while nobody qualifies, the
      earliest player with the highest positive capital is recorded, and with
      no positive capital the winner stays as it was. */
  method CheckVictory(g: Game) returns (over: bool, r: Game)
    ensures r == g.(winner := r.winner)
    ensures over <==> exists i :: 0 <= i < |g.players| && Qualifies(g.players[i])
    ensures over ==>
      exists i :: 0 <= i < |g.players| && Qualifies(g.players[i])
        && (forall j :: 0 <= j < i ==> !Qualifies(g.players[j]))
        && r.winner == Some(g.players[i])
    ensures !over && (exists i :: 0 <= i < |g.players| && g.players[i].capital > 0) ==>
      exists i :: 0 <= i < |g.players| && g.players[i].capital > 0
        && (forall j :: 0 <= j < |g.players| ==> g.players[j].capital <= g.players[i].capital)
        && (forall j :: 0 <= j < i ==> g.players[j].capital < g.players[i].capital)
        && r.winner == Some(g.players[i])
    ensures !over && (forall j :: 0 <= j < |g.players| ==> g.players[j].capital <= 0) ==>
      r.winner == g.winner
  {
    var v := Judge(g.players);
    over := v.over;
    r := if v.choice.Some? then g.(winner := Some(g.players[v.choice.value])) else g;
  }

  /** `_check_victory` as the source writes it: the assignment `self.winner = p`
      targets a property without a setter and raises AttributeError, which
      happens at the first player who qualifies or has positive capital; a
      check that gets past every player returns True. */
  function CheckVictoryAsWritten(ps: seq<Player>): (r: Result<bool>)
    ensures r.Ok? ==> r.value
    ensures r.Ok? <==> forall i :: 0 <= i < |ps| ==> !Qualifies(ps[i]) && ps[i].capital <= 0
  {
    if ps == [] then Ok(true)
    else if Qualifies(ps[0]) || ps[0].capital > 0 then Err(Fault)
    else
      var rest := CheckVictoryAsWritten(ps[1..]);
      assert forall i :: 1 <= i < |ps| ==> ps[i] == ps[1..][i - 1];
      rest
  }

  /** The source declares the game over although nobody qualifies. */
  lemma VictoryAlwaysTrueDiscrepancy()
    ensures var ps := [Player("a", 0, map[])];
      CheckVictoryAsWritten(ps) == Ok(true) && !Qualifies(ps[0])
  {
  }

  /** The source crashes where a provisional winner should be recorded: a
      fresh player has positive capital. */
  lemma WinnerAssignmentDiscrepancy()
    ensures var ps := [NewPlayer("a")];
      CheckVictoryAsWritten(ps) == Err(Fault) && !Qualifies(ps[0]) && ps[0].capital > 0
  {
  }
}

=== FILE: ordering.dfy ===
/** The later-turn player order: a stable sort, highest key first, on the key
    (capital, capital invested) compared lexicographically. Python's
    `list.sort(key=..., reverse=True)` keeps the previous order of elements
    whose keys are equal; `SortDesc` is that sort, generic in the element type
    so that its proofs do not depend on how a key is computed. */
module Ordering {

  /** The sort key of a player. */
  datatype Rank = Rank(capital: int, invested: int)

  /** Lexicographic `a >= b` on ranks. */
  predicate AtLeast(a: Rank, b: Rank) {
    a.capital > b.capital || (a.capital == b.capital && a.invested >= b.invested)
  }

  predicate NonIncreasing<T>(s: seq<T>, key: T -> Rank) {
    forall i, j :: 0 <= i < j < |s| ==> AtLeast(key(s[i]), key(s[j]))
  }

  /** Every element of `s` has a key no higher than `b`. */
  predicate Below<T>(b: Rank, s: seq<T>, key: T -> Rank) {
    forall i :: 0 <= i < |s| ==> AtLeast(b, key(s[i]))
  }

  /** Inserts `x` in front of the first element whose key it reaches, so that
      it stays ahead of every element of `s` with an equal key. */
  function Insert<T>(x: T, s: seq<T>, key: T -> Rank): (r: seq<T>)
    ensures multiset(r) == multiset(s) + multiset{x}
    ensures |r| == |s| + 1
  {
    if s == [] || AtLeast(key(x), key(s[0])) then
      [x] + s
    else
      assert s == [s[0]] + s[1..];
      [s[0]] + Insert(x, s[1..], key)
  }

  lemma {:induction false} InsertBelow<T>(b: Rank, x: T, s: seq<T>, key: T -> Rank)
    requires Below(b, s, key) && AtLeast(b, key(x))
    ensures Below(b, Insert(x, s, key), key)
  {
    if s != [] && !AtLeast(key(x), key(s[0])) {
      InsertBelow(b, x, s[1..], key);
      var rest := Insert(x, s[1..], key);
      var r := [s[0]] + rest;
      assert forall j :: 1 <= j < |r| ==> r[j] == rest[j - 1];
    }
  }

  /** Inserting into a sorted sequence keeps it sorted. */
  lemma {:induction false} InsertSorted<T>(x: T, s: seq<T>, key: T -> Rank)
    requires NonIncreasing(s, key)
    ensures NonIncreasing(Insert(x, s, key), key)
  {
    if s == [] || AtLeast(key(x), key(s[0])) {
      var r := [x] + s;
      assert forall j :: 1 <= j < |r| ==> r[j] == s[j - 1];
    } else {
      InsertSorted(x, s[1..], key);
      assert Below(key(s[0]), s[1..], key);
      InsertBelow(key(s[0]), x, s[1..], key);
      var rest := Insert(x, s[1..], key);
      var r := [s[0]] + rest;
      assert forall j :: 1 <= j < |r| ==> r[j] == rest[j - 1];
    }
  }

  /** Insertion sort, highest key first: a permutation of the input whose keys
      never increase. */
  function SortDesc<T>(s: seq<T>, key: T -> Rank): (r: seq<T>)
    ensures multiset(r) == multiset(s)
    ensures |r| == |s|
    ensures NonIncreasing(r, key)
  {
    if s == [] then []
    else
      assert s == [s[0]] + s[1..];
      var rest := SortDesc(s[1..], key);
      InsertSorted(s[0], rest, key);
      Insert(s[0], rest, key)
  }

  /** The elements of `s` whose key is `k`, in their order in `s`. */
  function WithKey<T>(s: seq<T>, key: T -> Rank, k: Rank): (r: seq<T>)
    ensures forall i :: 0 <= i < |r| ==> key(r[i]) == k
  {
    if s == [] then []
    else
      assert s == [s[0]] + s[1..];
      (if key(s[0]) == k then [s[0]] else []) + WithKey(s[1..], key, k)
  }

  lemma {:induction false} InsertKeepsTies<T>(x: T, s: seq<T>, key: T -> Rank, k: Rank)
    ensures WithKey(Insert(x, s, key), key, k) == (if key(x) == k then [x] else []) + WithKey(s, key, k)
  {
    if s == [] {
      assert Insert(x, s, key) == [x];
    } else if AtLeast(key(x), key(s[0])) {
      var r := [x] + s;
      assert r[0] == x && r[1..] == s;
    } else {
      var rest := Insert(x, s[1..], key);
      var r := [s[0]] + rest;
      assert r[0] == s[0] && r[1..] == rest;
      InsertKeepsTies(x, s[1..], key, k);
      assert key(s[0]) != key(x);
    }
  }

  /** Stability: for every key, the elements carrying it appear in the sorted
      sequence in the same relative order as in the input. */
  lemma {:induction false} SortIsStable<T>(s: seq<T>, key: T -> Rank, k: Rank)
    ensures WithKey(SortDesc(s, key), key, k) == WithKey(s, key, k)
  {
    if s != [] {
      SortIsStable(s[1..], key, k);
      InsertKeepsTies(s[0], SortDesc(s[1..], key), key, k);
    }
  }

  /** Worked scenario: capitals 500, 500, 700 with capital invested 10, 20,
      10. */
  lemma OrderingExample()
    ensures SortDesc([Rank(500, 10), Rank(500, 20), Rank(700, 10)], (r: Rank) => r)
         == [Rank(700, 10), Rank(500, 20), Rank(500, 10)]
  {
    var id := (r: Rank) => r;
    assert SortDesc([Rank(700, 10)], id) == [Rank(700, 10)];
    assert SortDesc([Rank(500, 20), Rank(700, 10)], id) == [Rank(700, 10), Rank(500, 20)];
  }
}

=== FILE: player.dfy ===
/** A player: a capital balance and a portfolio mapping asset names to owned
    assets, with buying, selling, investment plans, batched strategy changes,
    income collection and the derived predicates the victory rule reads.
    Models src/game/player.py. */
module Players {
  import opened Results
  import opened Settings
  import opened Coin
  import opened Assets

  datatype Player = Player(name: string, capital: int, portfolio: map<string, Asset>) {
    /** Every asset is filed under its own name and keeps the ledger invariant. */
    predicate Valid() {
      forall n :: n in portfolio ==> portfolio[n].name == n && portfolio[n].Valid()
    }
  }

  function NewPlayer(name: string): (p: Player)
    ensures p.capital == InitialCapital && p.portfolio == map[] && p.Valid()
  {
    Player(name, InitialCapital, map[])
  }

  // ----- Sums over a portfolio -----

  /** Some owned name; which one is left open. */
  ghost function Pick(m: map<string, Asset>): (k: string)
    requires |m| != 0
    ensures k in m
  {
    var k :| k in m; k
  }

  lemma CardRemove(m: map<string, Asset>, k: string)
    requires k in m
    ensures |m| != 0
    ensures |m - {k}| == |m| - 1
  {
  }

  /** The sum of `f` over the assets of `m`. A map has no iteration order, so
      the definition removes an arbitrary key; `SumRemove` shows that the
      choice does not matter. */
  ghost function SumOf(m: map<string, Asset>, f: Asset -> int): int
    decreases |m|
  {
    if |m| == 0 then 0
    else
      var k := Pick(m);
      CardRemove(m, k);
      f(m[k]) + SumOf(m - {k}, f)
  }

  lemma {:induction false} SumRemove(m: map<string, Asset>, f: Asset -> int, k: string)
    requires k in m
    ensures SumOf(m, f) == f(m[k]) + SumOf(m - {k}, f)
    decreases |m|
  {
    CardRemove(m, k);
    var j := Pick(m);
    if j != k {
      CardRemove(m, j);
      CardRemove(m - {j}, k);
      CardRemove(m - {k}, j);
      SumRemove(m - {j}, f, k);
      SumRemove(m - {k}, f, j);
      assert m - {j} - {k} == m - {k} - {j};
    }
  }

  lemma {:induction false} SumNonNegative(m: map<string, Asset>, f: Asset -> int)
    requires forall n :: n in m ==> f(m[n]) >= 0
    ensures SumOf(m, f) >= 0
    decreases |m|
  {
    if |m| != 0 {
      var k := Pick(m);
      SumRemove(m, f, k);
      CardRemove(m, k);
      SumNonNegative(m - {k}, f);
    }
  }

  /** Two maps with the same keys whose entries agree under `f` and `g` have
      equal sums. */
  lemma {:induction false} SumAgree(m: map<string, Asset>, f: Asset -> int, m': map<string, Asset>, g: Asset -> int)
    requires m.Keys == m'.Keys
    requires forall n :: n in m ==> f(m[n]) == g(m'[n])
    ensures SumOf(m, f) == SumOf(m', g)
    decreases |m|
  {
    if |m| != 0 {
      var k := Pick(m);
      SumRemove(m, f, k);
      SumRemove(m', g, k);
      CardRemove(m, k);
      SumAgree(m - {k}, f, m' - {k}, g);
    }
  }

  /** Total invested over the portfolio; never negative for a valid player. */
  ghost function CapitalInvested(p: Player): (r: int)
    ensures p.Valid() ==> r >= 0
  {
    var total := SumOf(p.portfolio, (a: Asset) => a.invested);
    assert p.Valid() ==> total >= 0 by {
      if p.Valid() {
        SumNonNegative(p.portfolio, (a: Asset) => a.invested);
      }
    }
    total
  }

  // ----- Buying and selling -----

  /** Buys an asset when the capital covers its price, filing it under its name. */
  function Buy(p: Player, a: Asset): (r: Result<Player>)
    ensures r.Err? <==> p.capital < a.price
    ensures r.Err? ==> r.error == InsufficientCapital
    ensures r.Ok? ==> p.capital - r.value.capital == a.price
    ensures r.Ok? ==> r.value.portfolio.Keys == p.portfolio.Keys + {a.name}
    ensures r.Ok? ==> r.value.portfolio[a.name] == a
    ensures r.Ok? ==> forall n :: n in p.portfolio && n != a.name ==> r.value.portfolio[n] == p.portfolio[n]
    ensures r.Ok? ==> r.value.name == p.name
    ensures r.Ok? && p.capital >= 0 ==> r.value.capital >= 0
    ensures r.Ok? && p.Valid() && a.Valid() ==> r.value.Valid()
  {
    if p.capital < a.price then Err(InsufficientCapital)
    else Ok(p.(portfolio := p.portfolio[a.name := a], capital := p.capital - a.price))
  }

  /** Sells the owned asset filed under `name`: its price and its current
      invested amount return to the capital and it leaves the portfolio.
      Selling a name that is not owned is refused with the state unchanged
      (see `SellAsWritten`). */
  function Sell(p: Player, name: string): (r: Result<Player>)
    ensures r.Err? <==> name !in p.portfolio
    ensures r.Err? ==> r.error == AssetNotOwned
    ensures r.Ok? ==> r.value.capital - p.capital == p.portfolio[name].invested + p.portfolio[name].price
    ensures r.Ok? ==> r.value.portfolio.Keys == p.portfolio.Keys - {name}
    ensures r.Ok? ==> forall n :: n in r.value.portfolio ==> r.value.portfolio[n] == p.portfolio[n]
    ensures r.Ok? ==> r.value.name == p.name
    ensures r.Ok? && p.Valid() ==> r.value.Valid()
  {
    if name !in p.portfolio then Err(AssetNotOwned)
    else
      var a := p.portfolio[name];
      Ok(p.(capital := p.capital + a.invested + a.price, portfolio := p.portfolio - {name}))
  }

  /** The outcome of a call that can raise after it has already changed the
      object: the state the object is left in, and whether the call raised. */
  datatype Outcome = Outcome(state: Player, raised: bool)

  /** `sell` as the source writes it: the capital is credited with the passed
      asset's amounts before the deletion raises KeyError for an asset that is
      not owned, so the failed call still leaves the player richer. For the
      asset the portfolio holds, it agrees with `Sell`. */
  function SellAsWritten(p: Player, a: Asset): (r: Outcome)
    ensures r.raised <==> a.name !in p.portfolio
    ensures r.state.capital == p.capital + a.invested + a.price
    ensures a.name in p.portfolio && p.portfolio[a.name] == a ==> Sell(p, a.name) == Ok(r.state)
  {
    var credited := p.(capital := p.capital + a.invested + a.price);
    if a.name in p.portfolio then Outcome(credited.(portfolio := credited.portfolio - {a.name}), false)
    else Outcome(credited, true)
  }

  /** Selling what is not owned: the source's failed call credits the capital,
      the model's refuses and changes nothing. */
  lemma SellUnownedDiscrepancy(p: Player, a: Asset)
    requires a.name !in p.portfolio
    requires a.invested + a.price != 0
    ensures SellAsWritten(p, a).raised && SellAsWritten(p, a).state != p
    ensures Sell(p, a.name) == Err(AssetNotOwned)
  {
  }

  /** Buying an asset that is not yet owned and selling it again before
      anything is invested restores the player. */
  lemma BuyThenSellRestores(p: Player, a: Asset)
    requires a.name !in p.portfolio && a.invested == 0
    requires p.capital >= a.price
    ensures Buy(p, a).Ok? && Sell(Buy(p, a).value, a.name) == Ok(p)
  {
    assert p.portfolio[a.name := a] - {a.name} == p.portfolio;
  }

  // ----- Batches -----

  /** The outcome of a fail-fast batch. The source applies the steps one by
      one and raises at the first failure without undoing the steps before
      it, so an aborted batch still carries the state those steps produced. */
  datatype Batch = Completed(player: Player) | Aborted(player: Player, step: nat, error: Error)

  /** Applies `f` for each step in order, stopping at the first failure. */
  function RunSteps<S>(p: Player, steps: seq<S>, f: (Player, S) -> Result<Player>): (r: Batch)
    ensures r.Aborted? ==> r.step < |steps| && f(r.player, steps[r.step]) == Err(r.error)
    ensures |steps| == 0 ==> r == Completed(p)
    ensures |steps| > 0 && f(p, steps[0]).Err? ==> r == Aborted(p, 0, f(p, steps[0]).error)
    ensures r.Completed? && |steps| > 0 ==> f(p, steps[0]).Ok?
    decreases |steps|
  {
    if steps == [] then Completed(p)
    else match f(p, steps[0])
      case Err(e) => Aborted(p, 0, e)
      case Ok(q) =>
        var rest := RunSteps(q, steps[1..], f);
        if rest.Aborted? then Aborted(rest.player, rest.step + 1, rest.error) else rest
  }

  /** The batch read as the source's loop: running one more step after a
      completed batch applies it to the batch's final state, and an aborted
      batch stays aborted where it was. */
  lemma {:induction false} RunExtend<S>(p: Player, steps: seq<S>, s: S, f: (Player, S) -> Result<Player>)
    ensures RunSteps(p, steps + [s], f) ==
      match RunSteps(p, steps, f)
      case Completed(q) => (match f(q, s) case Ok(q') => Completed(q') case Err(e) => Aborted(q, |steps|, e))
      case Aborted(q, k, e) => Aborted(q, k, e)
    decreases |steps|
  {
    if steps == [] {
      assert [] + [s] == [s];
      assert [s][1..] == [];
    } else {
      assert (steps + [s])[0] == steps[0];
      assert (steps + [s])[1..] == steps[1..] + [s];
      if f(p, steps[0]).Ok? {
        RunExtend(f(p, steps[0]).value, steps[1..], s, f);
      }
    }
  }

  /** An aborted batch carries exactly the state its earlier steps produced:
      they all succeeded, and nothing was rolled back. */
  lemma {:induction false} RunAbortedPrefix<S>(p: Player, steps: seq<S>, f: (Player, S) -> Result<Player>)
    ensures RunSteps(p, steps, f).Aborted? ==>
      RunSteps(p, steps[..RunSteps(p, steps, f).step], f) == Completed(RunSteps(p, steps, f).player)
    decreases |steps|
  {
    var r := RunSteps(p, steps, f);
    if steps != [] && r.Aborted? && f(p, steps[0]).Ok? {
      var q := f(p, steps[0]).value;
      var rest := RunSteps(q, steps[1..], f);
      RunAbortedPrefix(q, steps[1..], f);
      var prefix := steps[..r.step];
      assert prefix[0] == steps[0];
      assert prefix[1..] == steps[1..][..rest.step];
    }
  }

  /** A property every successful step preserves holds of a batch's final
      state, completed or aborted. */
  lemma {:induction false} RunPreserves<S>(p: Player, steps: seq<S>, f: (Player, S) -> Result<Player>, inv: Player -> bool)
    requires inv(p)
    requires forall q, s :: inv(q) && f(q, s).Ok? ==> inv(f(q, s).value)
    ensures inv(RunSteps(p, steps, f).player)
    decreases |steps|
  {
    if steps != [] && f(p, steps[0]).Ok? {
      RunPreserves(f(p, steps[0]).value, steps[1..], f, inv);
    }
  }

  /** One entry of an investment plan: an asset name and the action on it. */
  datatype PlanStep = PlanStep(asset: string, action: Action)

  /** Applies one plan entry to the named asset, which must be owned. */
  function InvestStep(p: Player, step: PlanStep): (r: Result<Player>)
    ensures step.asset !in p.portfolio ==> r == Err(AssetNotOwned)
    ensures step.asset in p.portfolio ==>
      (r.Err? <==> step.action.DisinvestAction? && step.action.amount > p.portfolio[step.asset].invested)
    ensures r.Err? && step.asset in p.portfolio ==> r.error == OverDisinvestment
    ensures r.Ok? ==> r.value == p.(portfolio := r.value.portfolio)
    ensures r.Ok? ==> r.value.portfolio.Keys == p.portfolio.Keys
    ensures r.Ok? ==> forall n :: n in p.portfolio && n != step.asset ==> r.value.portfolio[n] == p.portfolio[n]
    ensures r.Ok? ==>
      r.value.portfolio[step.asset]
        == p.portfolio[step.asset].(invested := p.portfolio[step.asset].invested + Signed(step.action))
  {
    if step.asset !in p.portfolio then Err(AssetNotOwned)
    else match Perform(p.portfolio[step.asset], step.action)
      case Err(e) => Err(e)
      case Ok(a) => Ok(p.(portfolio := p.portfolio[step.asset := a]))
  }

  /** The change an action makes to the invested amount when it succeeds. */
  function Signed(action: Action): int {
    match action
    case InvestAction(n) => n
    case DisinvestAction(n) => -n
  }

  /** The net change a plan makes to the invested amount of asset `n`. */
  function NetFor(plan: seq<PlanStep>, n: string): int {
    if plan == [] then 0
    else (if plan[0].asset == n then Signed(plan[0].action) else 0) + NetFor(plan[1..], n)
  }

  /** `invest`: applies an investment plan entry by entry. */
  function InvestPlan(p: Player, plan: seq<PlanStep>): (r: Batch)
    ensures r.Aborted? ==> r.step < |plan| && InvestStep(r.player, plan[r.step]) == Err(r.error)
    ensures |plan| == 0 ==> r == Completed(p)
    ensures |plan| > 0 && plan[0].asset !in p.portfolio ==> r == Aborted(p, 0, AssetNotOwned)
  {
    RunSteps(p, plan, InvestStep)
  }

  /** An investment plan never touches the capital or what is owned, and a
      completed plan moves each asset's invested amount by exactly the net of
      its entries and changes nothing else about it. */
  lemma {:induction false} InvestPlanEffect(p: Player, plan: seq<PlanStep>)
    ensures InvestPlan(p, plan).player.capital == p.capital
    ensures InvestPlan(p, plan).player.portfolio.Keys == p.portfolio.Keys
    ensures InvestPlan(p, plan).player.name == p.name
    ensures InvestPlan(p, plan).Completed? ==>
      forall n :: n in p.portfolio ==>
        InvestPlan(p, plan).player.portfolio[n]
          == p.portfolio[n].(invested := p.portfolio[n].invested + NetFor(plan, n))
    decreases |plan|
  {
    if plan != [] {
      var first := InvestStep(p, plan[0]);
      if first.Ok? {
        var q := first.value;
        InvestPlanEffect(q, plan[1..]);
      }
    }
  }

  /** A plan aborts with `AssetNotOwned` exactly at an entry naming an asset
      that is not owned, and every entry before the abort names an owned one;
      a completed plan named only owned assets, and an entry naming one that
      is not owned stops the plan there at the latest. */
  lemma {:induction false} InvestPlanOwnership(p: Player, plan: seq<PlanStep>)
    ensures InvestPlan(p, plan).Aborted? ==>
      (InvestPlan(p, plan).error == AssetNotOwned <==> plan[InvestPlan(p, plan).step].asset !in p.portfolio)
    ensures InvestPlan(p, plan).Aborted? ==>
      forall i :: 0 <= i < InvestPlan(p, plan).step ==> plan[i].asset in p.portfolio
    ensures InvestPlan(p, plan).Completed? ==>
      forall i :: 0 <= i < |plan| ==> plan[i].asset in p.portfolio
    ensures forall k :: 0 <= k < |plan| && plan[k].asset !in p.portfolio ==>
      InvestPlan(p, plan).Aborted? && InvestPlan(p, plan).step <= k
    decreases |plan|
  {
    if plan != [] {
      var first := InvestStep(p, plan[0]);
      if first.Ok? {
        InvestPlanOwnership(first.value, plan[1..]);
        var r := InvestPlan(p, plan);
        forall i | 0 < i < |plan|
          ensures plan[i] == plan[1..][i - 1]
        {
        }
        if r.Aborted? {
          forall i | 0 <= i < r.step
            ensures plan[i].asset in p.portfolio
          {
            if i > 0 {
              assert plan[i] == plan[1..][i - 1];
            }
          }
        }
      }
    }
  }

  /** A plan of investments into owned assets always completes. */
  lemma {:induction false} OwnedInvestmentsComplete(p: Player, plan: seq<PlanStep>)
    requires forall i :: 0 <= i < |plan| ==> plan[i].asset in p.portfolio && plan[i].action.InvestAction?
    ensures InvestPlan(p, plan).Completed?
    decreases |plan|
  {
    if plan != [] {
      OwnedInvestmentsComplete(InvestStep(p, plan[0]).value, plan[1..]);
    }
  }

  /** `invest` as the source writes it: after the ownership check the entry is
      dispatched with a keyword `amount=` that `Asset.action(type, *args)` does
      not accept, so the first owned entry raises a TypeError. */
  function InvestPlanAsWritten(p: Player, plan: seq<PlanStep>): (r: Batch)
    ensures |plan| > 0 ==> r.Aborted? && r.step == 0 && r.player == p
    ensures |plan| > 0 && plan[0].asset in p.portfolio ==> r.error == Fault
    ensures |plan| > 0 && plan[0].asset !in p.portfolio ==> r.error == AssetNotOwned
    ensures |plan| == 0 ==> r == Completed(p)
  {
    if plan == [] then Completed(p)
    else if plan[0].asset !in p.portfolio then Aborted(p, 0, AssetNotOwned)
    else Aborted(p, 0, Fault)
  }

  lemma InvestPlanDiscrepancy(p: Player, step: PlanStep)
    requires step.asset in p.portfolio && step.action.InvestAction?
    ensures InvestPlanAsWritten(p, [step]).Aborted?
    ensures InvestPlan(p, [step]).Completed?
  {
  }

  /** Switches the strategy of one owned asset. */
  function StrategyStep(p: Player, name: string, currentTurn: int): (r: Result<Player>)
    ensures name !in p.portfolio ==> r == Err(AssetNotOwned)
    ensures name in p.portfolio ==>
      (r.Err? <==> currentTurn - p.portfolio[name].lastChange < StrategyChangeInterval)
    ensures r.Ok? ==> r.value == p.(portfolio := p.portfolio[name := ChangeStrategy(p.portfolio[name], currentTurn).value])
  {
    if name !in p.portfolio then Err(AssetNotOwned)
    else match ChangeStrategy(p.portfolio[name], currentTurn)
      case Err(e) => Err(e)
      case Ok(a) => Ok(p.(portfolio := p.portfolio[name := a]))
  }

  /** `change_strategy`: switches the strategy of each named asset. The source
      iterates a set of names, whose order Python does not fix; `names` is that
      order. */
  function ChangeStrategies(p: Player, names: seq<string>, currentTurn: int): (r: Batch)
    ensures r.Aborted? ==> r.step < |names| && StrategyStep(r.player, names[r.step], currentTurn) == Err(r.error)
    ensures |names| == 0 ==> r == Completed(p)
    ensures |names| > 0 && names[0] !in p.portfolio ==> r == Aborted(p, 0, AssetNotOwned)
  {
    RunSteps(p, names, (q: Player, n: string) => StrategyStep(q, n, currentTurn))
  }

  predicate Distinct(names: seq<string>) {
    forall i, j :: 0 <= i < j < |names| ==> names[i] != names[j]
  }

  /** A batch of distinct names completes exactly when every name is owned and
      off its cool-down; it then switches exactly the named assets, and never
      touches the capital or what is owned. */
  lemma {:induction false} ChangeStrategiesEffect(p: Player, names: seq<string>, currentTurn: int)
    requires Distinct(names)
    ensures ChangeStrategies(p, names, currentTurn).player.capital == p.capital
    ensures ChangeStrategies(p, names, currentTurn).player.portfolio.Keys == p.portfolio.Keys
    ensures ChangeStrategies(p, names, currentTurn).Completed? <==>
      forall i :: 0 <= i < |names| ==>
        names[i] in p.portfolio && currentTurn - p.portfolio[names[i]].lastChange >= StrategyChangeInterval
    ensures ChangeStrategies(p, names, currentTurn).Completed? ==>
      forall n :: n in p.portfolio ==>
        ChangeStrategies(p, names, currentTurn).player.portfolio[n]
          == (if n in names then ChangeStrategy(p.portfolio[n], currentTurn).value else p.portfolio[n])
    decreases |names|
  {
    if names != [] {
      var first := StrategyStep(p, names[0], currentTurn);
      if first.Ok? {
        var q := first.value;
        var rest := names[1..];
        assert Distinct(rest);
        ChangeStrategiesEffect(q, rest, currentTurn);
        assert forall i :: 0 <= i < |rest| ==> rest[i] == names[i + 1] && rest[i] != names[0];
        assert names[0] !in rest;
      }
    }
  }

  /** The ledger invariant survives a batch of strategy changes, completed or
      aborted. */
  lemma ChangeStrategiesKeepValid(p: Player, names: seq<string>, currentTurn: int)
    requires p.Valid()
    ensures ChangeStrategies(p, names, currentTurn).player.Valid()
  {
    var step := (q: Player, n: string) => StrategyStep(q, n, currentTurn);
    RunPreserves(p, names, step, (q: Player) => q.Valid());
  }

  /** The ledger invariant survives an investment plan, completed or aborted,
      as long as the plan invests no negative amount. */
  lemma {:induction false} InvestPlanKeepsValid(p: Player, plan: seq<PlanStep>)
    requires p.Valid()
    requires forall i :: 0 <= i < |plan| && plan[i].action.InvestAction? ==> plan[i].action.amount >= 0
    ensures InvestPlan(p, plan).player.Valid()
    decreases |plan|
  {
    if plan != [] && InvestStep(p, plan[0]).Ok? {
      InvestPlanKeepsValid(InvestStep(p, plan[0]).value, plan[1..]);
    }
  }

  /** `change_strategy` as the source writes it: it calls
      `_validate_asset_in_portfolio`, which does not exist (the validator is the
      name-mangled `__validate_asset_in_portfolio`), so any non-empty batch
      raises an AttributeError before changing anything. */
  function ChangeStrategiesAsWritten(p: Player, names: seq<string>, currentTurn: int): (r: Batch)
    ensures r.Completed? <==> |names| == 0
    ensures r.player == p
    ensures |names| > 0 ==> r == Aborted(p, 0, Fault)
  {
    if names == [] then Completed(p) else Aborted(p, 0, Fault)
  }

  lemma ChangeStrategiesDiscrepancy(p: Player, name: string, currentTurn: int)
    requires name in p.portfolio
    requires currentTurn - p.portfolio[name].lastChange >= StrategyChangeInterval
    ensures ChangeStrategiesAsWritten(p, [name], currentTurn).Aborted?
    ensures ChangeStrategies(p, [name], currentTurn).Completed?
  {
  }

  // ----- Income -----

  /** The interest of the whole portfolio in a turn with the given trend. */
  ghost function PortfolioInterest(p: Player, trend: Trend): int {
    SumOf(p.portfolio, (a: Asset) => Interest(a, trend))
  }

  /** `collect_income`: adds every owned asset's interest, all under the same
      trend, to the capital. */
  ghost function CollectIncome(p: Player, trend: Trend): (r: Player)
    ensures r.portfolio == p.portfolio && r.name == p.name
    ensures r.capital - p.capital == PortfolioInterest(p, trend)
  {
    p.(capital := p.capital + PortfolioInterest(p, trend))
  }

  /** Income is the sum of the assets' interests: it is removed asset by asset. */
  lemma IncomeOfOneAsset(p: Player, trend: Trend, n: string)
    requires n in p.portfolio
    ensures CollectIncome(p, trend).capital
      == p.capital + Interest(p.portfolio[n], trend) + PortfolioInterest(p.(portfolio := p.portfolio - {n}), trend)
  {
    SumRemove(p.portfolio, (a: Asset) => Interest(a, trend), n);
  }

  /** A portfolio entirely on hold earns nothing, whatever the trend. */
  lemma {:induction false} OnHoldPortfolioEarnsNothing(p: Player, trend: Trend)
    requires forall n :: n in p.portfolio ==> !p.portfolio[n].IsActive()
    ensures CollectIncome(p, trend) == p
  {
    SumAgree(p.portfolio, (a: Asset) => Interest(a, trend), p.portfolio, (a: Asset) => 0);
    SumZero(p.portfolio);
  }

  lemma {:induction false} SumZero(m: map<string, Asset>)
    ensures SumOf(m, (a: Asset) => 0) == 0
    decreases |m|
  {
    if |m| != 0 {
      var k := Pick(m);
      SumRemove(m, (a: Asset) => 0, k);
      CardRemove(m, k);
      SumZero(m - {k});
    }
  }

  /** `collect_income` as the source writes it: it iterates the portfolio's
      keys, which are strings, and calls `calculate_interest` on them, so any
      non-empty portfolio raises an AttributeError. */
  function CollectIncomeAsWritten(p: Player, trend: Trend): (r: Result<Player>)
    ensures r.Ok? <==> |p.portfolio| == 0
    ensures r.Ok? ==> r.value == p
    ensures r.Err? ==> r.error == Fault
  {
    if |p.portfolio| == 0 then Ok(p) else Err(Fault)
  }

  lemma CollectIncomeDiscrepancy(p: Player, trend: Trend, n: string)
    requires n in p.portfolio
    ensures CollectIncomeAsWritten(p, trend).Err?
    ensures CollectIncome(p, trend).capital
      == p.capital + Interest(p.portfolio[n], trend) + PortfolioInterest(p.(portfolio := p.portfolio - {n}), trend)
  {
    IncomeOfOneAsset(p, trend, n);
  }

  // ----- Derived predicates -----

  /** Bankrupt: nothing left to sell and a negative balance. */
  predicate IsBankrupt(p: Player) {
    |p.portfolio| == 0 && p.capital < 0
  }

  /** A bankrupt player can buy nothing with a non-negative price and earns no
      income, so stays bankrupt. */
  lemma BankruptIsStuck(p: Player, a: Asset, trend: Trend)
    requires IsBankrupt(p)
    requires a.price >= 0
    ensures Buy(p, a) == Err(InsufficientCapital)
    ensures IsBankrupt(CollectIncome(p, trend)) && CollectIncome(p, trend).capital == p.capital
  {
  }

  function Kinds(p: Player): set<AssetType> {
    set n | n in p.portfolio :: p.portfolio[n].kind
  }

  /** Diversified, as the source computes it: as many distinct asset types as
      there are asset types. */
  predicate IsDiversified(p: Player) {
    |Kinds(p)| == 3
  }

  /** Diversified means holding a Bond, a Stock and a Crypto. */
  lemma DiversifiedMeansEveryType(p: Player)
    ensures IsDiversified(p) <==> (Bond in Kinds(p) && Stock in Kinds(p) && Crypto in Kinds(p))
  {
    var all: set<AssetType> := {Bond, Stock, Crypto};
    assert |all| == 3;
    assert Kinds(p) <= all by {
      forall t | t in Kinds(p) ensures t in all {
        assert t.Bond? || t.Stock? || t.Crypto?;
      }
    }
    if Kinds(p) != all {
      var missing :| missing in all - Kinds(p);
      var rest := all - {missing};
      assert |rest| == 2;
      assert Kinds(p) <= rest;
      SubsetCard(Kinds(p), rest);
    }
  }

  lemma {:induction false} SubsetCard<T>(a: set<T>, b: set<T>)
    requires a <= b
    ensures |a| <= |b|
    decreases |a|
  {
    if a != {} {
      var x :| x in a;
      SubsetCard(a - {x}, b - {x});
    }
  }

  function Sectors(p: Player): set<Sector> {
    set n | n in p.portfolio :: p.portfolio[n].sector
  }

  function NumSectors(p: Player): nat {
    |Sectors(p)|
  }

  /** No owned asset is on hold. */
  predicate NoneOnHold(p: Player) {
    forall n :: n in p.portfolio ==> p.portfolio[n].IsActive()
  }

  // ----- Worked scenarios -----

  lemma BuyExample(a: Asset, b: Asset)
    requires a.price == 1000 && b.price > 0
    ensures Buy(NewPlayer("p"), a).Ok? && Buy(NewPlayer("p"), a).value.capital == 0
    ensures Buy(Buy(NewPlayer("p"), a).value, b) == Err(InsufficientCapital)
  {
  }

  lemma SellExample(p: Player, name: string)
    requires p.capital == 0 && name in p.portfolio
    requires p.portfolio[name].invested == 50 && p.portfolio[name].price == 200
    ensures Sell(p, name).Ok? && Sell(p, name).value.capital == 250
    ensures InvestStep(Sell(p, name).value, PlanStep(name, InvestAction(1))) == Err(AssetNotOwned)
    ensures Sell(Sell(p, name).value, name) == Err(AssetNotOwned)
  {
  }

  /** Buying an asset, investing 100 in it and selling it returns both the
      price and the 100 that were invested. */
  lemma BuyInvestSellExample(p: Player, a: Asset)
    requires a.name !in p.portfolio && a.invested == 0 && p.capital >= a.price
    ensures var bought := Buy(p, a).value;
      var planned := InvestPlan(bought, [PlanStep(a.name, InvestAction(100))]);
      && planned.Completed?
      && Sell(planned.player, a.name).Ok?
      && Sell(planned.player, a.name).value.capital == p.capital + 100
  {
  }
}

=== FILE: results.dfy ===
/** Failure-carrying return types shared by the whole model.

    The game raises a Python exception for every rejected action; here each
    guarded operation returns a `Result` instead, and a failed operation hands
    back no new state, so the caller keeps the one it had.
 */
module Results {

  datatype Option<+T> = None | Some(value: T)

  /** The ways an action can be rejected. The message texts of the source are
      not modelled; `StrategyChangeTooSoon` keeps the number of turns the
      message reports. `Fault` stands for a Python runtime error (a missing
      attribute, an unexpected keyword argument) raised by a defect. */
  datatype Error =
    | InsufficientCapital
    | OverDisinvestment
    | AssetNotOwned
    | StrategyChangeTooSoon(turnsLeft: int)
    | Fault

  datatype Result<+T> = Ok(value: T) | Err(error: Error)
}

=== FILE: settings.dfy ===
/** The game constants the core reads. */
module Settings {

  /** Capital every player starts with. */
  const InitialCapital: int := 1000

  /** Turns that must elapse between two strategy changes on one asset. */
  const StrategyChangeInterval: int := 3

  /** Capital a player needs to win. */
  const CapitalThresholdToWin: int := 10000

  /** Distinct sectors a player must hold to win. */
  const MinDifferentSectorsToWin: int := 3

  /** The turn the game starts on. */
  const FirstTurn: int := 1
}
